=== FILE: README.md ===
# Weekly class timetable — a Dafny model

This project models the logic behind a school timetable page. The page shows one
class's week as a grid of 9 periods by 5 days. Each filled cell holds one schedule
item: a subject taught to the class in a room. The model covers four parts:

- **The mock schedule generator** (`generateSchedule`). It walks the week day by
  day and period by period. Each slot is filled or skipped at random, and a filled
  slot gets a consecutive id, a random subject and a room `R101`..`R120`. The model
  is an imperative method with the same nested loops. `Math.random()` becomes an
  oracle `draw(day, periodId)`, which says whether the slot is filled and which
  subject index (below 15) and room offset (below 20) were drawn. The method is
  proved equal to the recursive definition `Generated`. Lemmas about `Generated`
  prove that each slot holds an item exactly when its draw filled it, with the
  drawn subject and room, that ids are 1..n in push order, that every slot lies inside the week, and
  that items are ordered by day and then period with at most one per slot. They
  also prove the subject and room bounds and the 45-item bound.
- **The page state and its handlers.** Select class, refresh, delete and add are
  modelled as the class `ScheduleStore.Store` with fields `selectedClass` and
  `schedule`. Each handler's state update is a pure list expression in the source,
  and those are the functions `TryAdd` and `WithoutItem`. Every handler keeps the
  invariant `Consistent`: unique ids, at most one item per (period, day) slot,
  positive ids, and every item belonging to the selected class.
- **The grid and its cell lookup** (`getSubjectForCell`). A cell shows the first
  item found in its slot and resolves that item's subject in the subject table.
  The cell is empty exactly when no subject was resolved, and it carries the found
  item's room. The grid passes a delete callback exactly when a (truthy) item id
  was found. When ids are unique and positive and no slot holds two items, each
  item inside the week gets its delete callback passed to exactly one cell,
  whatever the items' classes.
- **The drag-and-drop cell component.** Its drop target's id is `droppable-`
  followed by the cell's id, and its day is read back from the id with
  `parseInt(id.split('-')[1], 10)`. For an id in the grid key format
  `${p}-${d}`, the model proves this returns d and that different keys give
  different drop ids. It also proves that dragging is enabled exactly for
  non-empty cells.

The JavaScript built-ins this logic relies on are modelled in `JsArray` and
`JsString`: `find` (defined through a first-match index), `filter`,
`Math.max(...xs, 0)`, number-to-text rendering, `parseInt` and `split`/`join`.

Two points where the model follows the code rather than the evident intent:

- **Occupied-slot check.** The intended rule is at most one item per class, day
  and period: an add is rejected when the same class already holds the slot. The
  code (`src/pages/Index.tsx:53-55`) compares only `periodId` and
  `day`. `TryAdd` follows the code, and `AddBlockedByAnyClass`
  records the difference.
- **Item id 0.** The grid's `itemId ? ... : undefined` tests truthiness, so an item
  with id 0 would be found but get no delete callback. `CellFor` models this. The store
  invariant keeps ids at 1 or above, so `DeleteOfferedIffItemFound` holds for
  every schedule the page can reach.

## Model

| member | source | states |
|---|---|---|
| `JsArray.Find` | src/components/TimetableGrid.tsx:13-15 | `find` returns undefined exactly when no element matches; otherwise it returns an element that matches and has no matching element before it |
| `JsArray.Filter` | src/pages/Index.tsx:35-37 | `filter` keeps every element that satisfies the predicate and nothing else, and never grows the list |
| `JsArray.FilterAppend` | src/pages/Index.tsx:35-37 | filtering works piecewise over a concatenation, so the kept elements stay in their original order |
| `JsArray.Max` | src/pages/Index.tsx:67 | `Math.max(...xs, floor)` is at least `floor` and every element, and it equals `floor` or one of the elements |
| `JsString.NatToString` | src/components/TimetableGrid.tsx:40 | `${n}` of a natural number is a non-empty digit string with no leading zero |
| `JsString.IntToString` | src/components/TimetableGrid.tsx:40 | `${n}` of an integer is its canonical decimal text: a `-` exactly when n is negative, then at least one digit, with no leading zero unless the number is 0, and those digits read back as the magnitude of n |
| `JsString.DigitsValueOfNatToString` | src/components/TimetableGrid.tsx:40 | reading back the decimal text of n gives n |
| `JsString.NatToStringInjective` | src/components/TimetableGrid.tsx:40 | different numbers have different decimal texts |
| `JsString.ParseInt` | src/components/DraggableTimetableCell.tsx:44 | `parseInt(s, 10)` is NaN exactly when no digit follows the optional sign; otherwise it is the value of the leading digits |
| `JsString.ParseIntOfNatToString` | src/components/DraggableTimetableCell.tsx:44 | `parseInt` reads back the decimal text of n, whatever non-digit text follows it |
| `JsString.Split` | src/components/DraggableTimetableCell.tsx:44 | `split(sep)` gives at least one part, no part holds the separator, and joining the parts with the separator gives back the input |
| `JsString.SplitJoin` | src/components/DraggableTimetableCell.tsx:44 | splitting undoes joining when no part holds the separator |
| `JsString.SplitField` | src/components/DraggableTimetableCell.tsx:44 | `split(sep)[k]` is defined exactly when there are more than k parts, and then it is the k-th part, which holds no separator |
| `MockData.TableSizes` | src/data/mockData.ts:33-77 | the named sizes 5, 9 and 15 are the lengths of `days`, `periods` and `subjects` |
| `MockData.SubjectTable` | src/data/mockData.ts:33-49 | the subject table has 15 rows with ids 1, 2, ..., 15 in order, so no id repeats |
| `MockData.PeriodAndDayTables` | src/data/mockData.ts:64-77 | the period table has ids 1..9 in order, and there are exactly five day labels |
| `MockData.RoomLabel` | src/data/mockData.ts:90 | the room label `R${n}`: `R` before the decimal text of n; its shape is stated by `RoomLabelDigits` |
| `MockData.RoomLabelDigits` | src/data/mockData.ts:90 | `R${n}` is `R` followed by the decimal digits of n |
| `MockData.DayItemsShape` | src/data/mockData.ts:86-100 | one day's items number consecutively, lie on that day and on periods 1..p in increasing order, number at most p, and each has the class id, a subject in 1..15 and a room R101..R120 |
| `MockData.ItemsUpToDayShape` | src/data/mockData.ts:85-102 | after d days the items are numbered 1..n in push order, number at most 9·d, lie on days before d and periods 1..9, and come in strictly increasing (day, period) order |
| `MockData.WeekPrefixExtend` | src/data/mockData.ts:85-102 | appending the next day's items to the first d - 1 days gives a valid first d days |
| `MockData.WeekPrefixExtendOrdered` | src/data/mockData.ts:85-102 | the next day's items come after all earlier days' items in slot order |
| `MockData.DayItemsFollowDraws` | src/data/mockData.ts:86-100 | in one day's items, each of periods 1..p holds an item exactly when its draw filled it, with the drawn subject and room |
| `MockData.ItemsUpToDayFollowDraws` | src/data/mockData.ts:85-102 | after d days, each slot of those days holds an item exactly when its draw filled it, with the drawn subject and room |
| `MockData.Generated` | src/data/mockData.ts:80-105 | a generated week has at most 45 items with ids 1..n in push order (so they are distinct), all in the week's slots and for the given class, subject ids in 1..15 and rooms R101..R120; items are ordered by day and then period, with at most one per slot; and each slot of the week holds an item exactly when its draw filled it, with subject `pick + 1` and room `R${offset + 101}` |
| `MockData.GenerateSchedule` | src/data/mockData.ts:80-105 | the nested loops return exactly `Generated(classId, draw)` |
| `ScheduleStore.MaxId` | src/pages/Index.tsx:67 | the id maximum is 0 on an empty schedule, at least every id, and one of the ids when positive |
| `ScheduleStore.TryAdd` | src/pages/Index.tsx:45-81 | an add succeeds exactly when no item is in the requested (period, day) slot, whatever its class; a rejected add leaves the schedule unchanged; a successful one appends one item after the unchanged old items, with id max + 1 (1 on an empty schedule, above every existing id), the selected class and the request's fields |
| `ScheduleStore.WithoutItem` | src/pages/Index.tsx:34-37 | a delete keeps exactly the items whose id differs, and leaves the schedule unchanged when the id is absent |
| `ScheduleStore.TryAddKeepsConsistent` | src/pages/Index.tsx:51-80 | an add preserves unique ids, one item per slot, positive ids and a single class |
| `ScheduleStore.SecondAddToSlotRejected` | src/pages/Index.tsx:53-64 | once an add into a slot succeeded, a second add into that slot is rejected and changes nothing |
| `ScheduleStore.AddBlockedByAnyClass` | src/pages/Index.tsx:53-64 | an item of another class in the slot also blocks the add, because the check does not compare class ids |
| `ScheduleStore.OccupiedSlotExample` | src/pages/Index.tsx:53-64 | with one item at period 1 on Monday, adding another subject there is rejected and leaves that single item |
| `ScheduleStore.WithoutItemIdempotent` | src/pages/Index.tsx:35-37 | deleting an id twice is the same as deleting it once |
| `ScheduleStore.WithoutItemAppend` | src/pages/Index.tsx:35-37 | a delete keeps the remaining items in their original order |
| `ScheduleStore.WithoutItemCutsOut` | src/pages/Index.tsx:35-37 | with unique ids, deleting the id at position k removes exactly that item and keeps the rest in order |
| `ScheduleStore.WithoutItemKeepsConsistent` | src/pages/Index.tsx:34-37 | a delete preserves the store invariant |
| `ScheduleStore.GeneratedIsConsistent` | src/pages/Index.tsx:13-26 | a freshly generated schedule satisfies the store invariant for the class it was generated for |
| `ScheduleStore.Store.constructor` | src/pages/Index.tsx:9-10 | the page starts on the first class with a schedule generated for class 1, and the invariant holds |
| `ScheduleStore.Store.HandleSelectClass` | src/pages/Index.tsx:13-16 | selecting a class stores it and replaces the whole schedule with one generated for its id; the invariant holds afterwards |
| `ScheduleStore.Store.HandleRefreshSchedule` | src/pages/Index.tsx:24-26 | a refresh keeps the selected class and replaces the schedule with one generated for it; the invariant holds afterwards |
| `ScheduleStore.Store.HandleDeleteItem` | src/pages/Index.tsx:34-37 | a delete keeps the class, applies `WithoutItem` to the schedule and preserves the invariant |
| `ScheduleStore.Store.HandleAddItem` | src/pages/Index.tsx:45-82 | an add keeps the class, applies `TryAdd` for the selected class, reports whether the item was added, and preserves the invariant |
| `TimetableGrid.GetSubjectForCell` | src/components/TimetableGrid.tsx:12-23 | with no item in the slot, subject, room and id are all undefined; otherwise room and id come from the first item in the slot, and the subject is the subject-table lookup of that item's subject id |
| `TimetableGrid.SubjectLookup` | src/components/TimetableGrid.tsx:21 | subject ids 1..15 resolve to their own table row, and every other id resolves to undefined |
| `TimetableGrid.CellKey` | src/components/TimetableGrid.tsx:40 | the cell key `${period.id}-${dayIndex}`: the two numbers' texts joined by `-`; `CellKeySplit` and `CellKeyInjective` state that for naturals it splits back into both texts and determines both numbers |
| `TimetableGrid.CellKeySplit` | src/components/TimetableGrid.tsx:40 | a cell key of natural coordinates splits on `-` into exactly the two decimal texts |
| `TimetableGrid.CellKeyInjective` | src/components/TimetableGrid.tsx:40 | a cell key of natural coordinates determines both coordinates |
| `TimetableGrid.CellFor` | src/components/TimetableGrid.tsx:36-46 | a cell is keyed `${period.id}-${dayIndex}`, is passed the looked-up subject and room, is empty exactly when no subject was resolved, and is passed a delete callback for the found id exactly when that id is truthy |
| `TimetableGrid.Grid` | src/components/TimetableGrid.tsx:27-50 | the grid has one row per period and one cell per day, and the cell in row i, column j is the cell for period i on day j |
| `TimetableGrid.GridCellAt` | src/components/TimetableGrid.tsx:27-40 | the grid is 9 by 5 in period-major order, and the cell in row i, column j is for period i + 1 on day j, keyed `${i + 1}-${j}` |
| `TimetableGrid.CellDeletesOnlyOwnItem` | src/components/TimetableGrid.tsx:13-45 | when ids are unique and positive and no slot holds two items, whatever the items' classes, a cell is passed a delete callback for an item exactly when the cell is that item's slot |
| `TimetableGrid.GridShowsItemOnce` | src/components/TimetableGrid.tsx:13-48 | when ids are unique and positive and no slot holds two items, whatever the items' classes, every item inside the week has its delete callback passed to exactly one grid cell, the one at its period and day |
| `TimetableGrid.DeleteOfferedIffItemFound` | src/components/TimetableGrid.tsx:45 | when all ids are positive, a cell is passed a delete callback exactly when some item sits in its slot |
| `TimetableGrid.UnknownSubjectRendersEmpty` | src/components/TimetableGrid.tsx:21-44 | for any period with the item's period id, and for the first item in its slot with a subject id not in the table, the lookup still finds the item's id, yet the cell is empty; the cell still carries the item's room and, for a nonzero id, a delete callback for it |
| `DraggableCell.DroppableId` | src/components/DraggableTimetableCell.tsx:41 | the drop-target id is `droppable-` followed by the cell id |
| `DraggableCell.DroppableIdInjective` | src/components/DraggableTimetableCell.tsx:41 | different cell ids give different drop-target ids |
| `DraggableCell.ParseDayIndex` | src/components/DraggableTimetableCell.tsx:44 | `parseInt(id.split('-')[1], 10)`: the number at the start of the text after the first `-`, or NaN; `DayIndexOfCellKey` states it reads d back from a key `${p}-${d}`, and `DayIndexWithoutDash` that an id without `-` gives NaN |
| `DraggableCell.DayIndexWithoutDash` | src/components/DraggableTimetableCell.tsx:44 | an id without `-` has no second field, so its day parses to NaN |
| `DraggableCell.DayIndexOfCellKey` | src/components/DraggableTimetableCell.tsx:44 | for a key `${p}-${d}` of natural numbers, the parsed day is d |
| `DraggableCell.Bindings` | src/components/DraggableTimetableCell.tsx:27-62 | the drag and drop data carry the cell's subject, room and period, the `timetable-cell` tag and the cell's `isEmpty` flag unchanged; the drop target's period is `period.id` whatever the id text says; dragging is disabled, listeners are left off and the grab cursor is not shown exactly when the cell is empty |
| `DraggableCell.KeyedCellBindings` | src/components/DraggableTimetableCell.tsx:40-46 | a cell whose id is `${p}-${d}` for naturals p and d registers the drop target `droppable-${p}-${d}` for day d and its own `period.id` |
| `DraggableCell.KeyedDropIdsDistinct` | src/components/DraggableTimetableCell.tsx:41 | ids `${p}-${d}` of different (p, d) pairs give different drop-target ids |

## Left out

- Randomness: `Math.random() < 0.7` and the `Math.floor(Math.random() * k)` draws are an oracle `draw(day, periodId)`. The model says nothing about probabilities. It keeps only the ranges of the draws: subject index below 15, room offset below 20.
- The oracle is indexed by slot, not by call order. The code makes up to three calls per slot in sequence, and any such sequence of outcomes is one oracle.
- Toast notifications, React state hooks (`useState`, `useCallback`) and all rendering (JSX, the period header column, styling). An add reports whether it was accepted instead of raising a toast.
- The drag-and-drop library: `useDraggable`/`useDroppable`, `attributes`, `setNodeRef`, `isDragging` and the opacity it sets. `Bindings` records only what the cell passes to the library. The cell's `index` prop is never used by the code, so it is not modelled.
- `src/components/DraggableTimetableCell.tsx` is rendered by no page of this code; the grid renders plain cells. The model takes the component on its own and assumes, in `KeyedCellBindings` and `KeyedDropIdsDistinct`, that its id has the grid key's format `${period.id}-${dayIndex}`.
- `src/components/TimetableCell.tsx` declares no `onDelete` prop, so the delete callback the grid builds is passed and ignored, and a cell with `isEmpty` renders an empty box without its room. The model stops at the props the grid passes.
- Beyond that, `src/components/TimetableCell.tsx` and the form, list, card and sidebar components only display data or collect form input, so they are not part of this model.
- Moving an item, persistence, cascade deletion of classes and subjects, and CSV export do not exist in this code. `onMoveItem` is declared by `src/components/Timetable.tsx` but never supplied.
- JavaScript numbers are doubles. The model uses unbounded integers, which agree with them on every id and index the page can produce (at most 45 generated items, each add increasing the maximum by one).
- `JsString.ParseInt`: leading white space and a `-` sign are not modelled, because they cannot occur here. The text it reads is a field of a `split('-')`, so it holds no `-`, and cell keys hold no white space.
- The generator and the grid iterate over the tables' lengths. The model uses the constants 5, 9 and 15, and `TableSizes` proves they equal those lengths.

=== FILE: draggable_cell.dfy ===
/**
 * The drag-and-drop wrapper of one timetable cell
 * (src/components/DraggableTimetableCell.tsx): what it registers as a drag
 * source and as a drop target, and which interaction it enables.
 *
 * The drop target's id is the cell id behind the prefix `droppable-`, and its
 * day is read back from the cell id with `parseInt(id.split('-')[1], 10)`, which
 * expects an id in the grid key's format `${period.id}-${dayIndex}`. No page of
 * this code renders the component, so its props are taken here as any `CellView`.
 */
module DraggableCell {
  import opened JsArray
  import opened JsString
  import opened MockData
  import opened TimetableGrid

  /** The `type` tag both registrations carry. */
  const CellKind: string := "timetable-cell"

  const DropPrefix: string := "droppable-"

  /** The `data` of the drag source. */
  datatype DragData = DragData(subject: Option<Subject>, room: Option<string>, period: Period, kind: string, isEmpty: bool)

  /** The `data` of the drop target; a `dayIndex` of `None` stands for NaN. */
  datatype DropData = DropData(periodId: int, dayIndex: Option<nat>, kind: string)

  datatype Cursor = Default | Grab

  /**
   * What one cell registers: the drag source (id, data, whether it is disabled),
   * the drop target (id, data), whether the drag listeners are spread onto the
   * element, and the cursor it shows.
   */
  datatype CellBindings = CellBindings(
    dragId: string, dragData: DragData, dragDisabled: bool,
    dropId: string, dropData: DropData,
    listenersAttached: bool, cursor: Cursor)

  /** `droppable-${id}`. */
  function DroppableId(id: string): (r: string)
    ensures |r| == |DropPrefix| + |id|
    ensures r[..|DropPrefix|] == DropPrefix && r[|DropPrefix|..] == id
  {
    DropPrefix + id
  }

  /** Different cell ids give different drop-target ids. */
  lemma DroppableIdInjective(a: string, b: string)
    requires DroppableId(a) == DroppableId(b)
    ensures a == b
  {
    assert a == DroppableId(a)[|DropPrefix|..];
  }

  /** `parseInt(id.split('-')[1], 10)`: the number at the start of the text after the first `-`. */
  function ParseDayIndex(id: string): Option<nat>
  {
    match SplitField(id, '-', 1)
    case None => None
    case Some(field) => ParseInt(field)
  }

  /** An id without `-` has no second field, so its day is NaN. */
  lemma DayIndexWithoutDash(id: string)
    requires '-' !in id
    ensures ParseDayIndex(id) == None
  {
    SplitWithoutSeparator(id, '-');
  }

  /** The day is read back from a key `${p}-${d}` of natural numbers: it is `d`. */
  lemma DayIndexOfCellKey(periodId: nat, dayIndex: nat)
    ensures ParseDayIndex(CellKey(periodId, dayIndex)) == Some(dayIndex)
  {
    CellKeySplit(periodId, dayIndex);
    ParseIntOfNatToString(dayIndex, []);
    assert NatToString(dayIndex) + [] == NatToString(dayIndex);
  }

  /** The registrations of the cell rendered from `v`, whose `key` is its id. */
  function Bindings(v: CellView): (b: CellBindings)
    ensures b.dragId == v.key && b.dropId == DroppableId(v.key)
    ensures b.dragData.kind == CellKind && b.dropData.kind == CellKind
    ensures b.dragData.isEmpty == v.isEmpty
    ensures b.dragData.subject == v.subject && b.dragData.room == v.room && b.dragData.period == v.period
    ensures b.dropData.periodId == v.period.id
    ensures b.dropData.dayIndex == ParseDayIndex(v.key)
    ensures b.dragDisabled <==> v.isEmpty
    ensures b.listenersAttached <==> !v.isEmpty
    ensures b.cursor == Grab <==> !v.isEmpty
  {
    CellBindings(
      v.key, DragData(v.subject, v.room, v.period, CellKind, v.isEmpty), v.isEmpty,
      DroppableId(v.key), DropData(v.period.id, ParseDayIndex(v.key), CellKind),
      !v.isEmpty, if v.isEmpty then Default else Grab)
  }

  /**
   * A cell whose id has the key format `${p}-${d}` of natural numbers registers a
   * drop target for day d and for its own `period.id`, under the id
   * `droppable-${p}-${d}`.
   */
  lemma KeyedCellBindings(v: CellView, p: nat, d: nat)
    requires v.key == CellKey(p, d)
    ensures Bindings(v).dropData == DropData(v.period.id, Some(d), CellKind)
    ensures Bindings(v).dropId == DroppableId(CellKey(p, d))
  {
    DayIndexOfCellKey(p, d);
  }

  /** Cells whose ids are keys of different (period, day) pairs register different drop targets. */
  lemma KeyedDropIdsDistinct(p1: nat, d1: nat, p2: nat, d2: nat)
    requires (p1, d1) != (p2, d2)
    ensures DroppableId(CellKey(p1, d1)) != DroppableId(CellKey(p2, d2))
  {
    if DroppableId(CellKey(p1, d1)) == DroppableId(CellKey(p2, d2)) {
      DroppableIdInjective(CellKey(p1, d1), CellKey(p2, d2));
      CellKeyInjective(p1, d1, p2, d2);
    }
  }
}

=== FILE: js_array.dfy ===
/** The few JavaScript array built-ins the timetable logic relies on, as functions on sequences. */
module JsArray {

  /** A value that may be `undefined`. */
  datatype Option<+T> = None | Some(value: T)

  /** `s.findIndex(p)`, with `None` standing for the result -1. */
  function FindIndex<T>(s: seq<T>, p: T -> bool): (r: Option<nat>)
    ensures r.None? <==> forall i | 0 <= i < |s| :: !p(s[i])
    ensures r.Some? ==> r.value < |s| && p(s[r.value])
    ensures r.Some? ==> forall j | 0 <= j < r.value :: !p(s[j])
  {
    if s == [] then None
    else if p(s[0]) then Some(0)
    else match FindIndex(s[1..], p)
      case None => None
      case Some(i) =>
        assert forall j | 1 <= j < i + 1 :: s[j] == s[1..][j - 1];
        Some(i + 1)
  }

  /** `s.find(p)`: the first element satisfying `p`, or `undefined`. */
  function Find<T>(s: seq<T>, p: T -> bool): (r: Option<T>)
    ensures r.None? <==> forall i | 0 <= i < |s| :: !p(s[i])
    ensures r.Some? ==> exists i | 0 <= i < |s| :: s[i] == r.value && p(s[i]) && forall j | 0 <= j < i :: !p(s[j])
  {
    match FindIndex(s, p)
    case None => None
    case Some(i) => Some(s[i])
  }

  /** `s.filter(p)`: the elements satisfying `p`, in their original order. */
  function Filter<T>(s: seq<T>, p: T -> bool): (r: seq<T>)
    ensures |r| <= |s|
    ensures forall i | 0 <= i < |r| :: r[i] in s && p(r[i])
    ensures forall i | 0 <= i < |s| :: p(s[i]) ==> s[i] in r
  {
    if s == [] then []
    else (if p(s[0]) then [s[0]] else []) + Filter(s[1..], p)
  }

  /** Filtering distributes over concatenation: the kept elements keep their relative order. */
  lemma {:induction false} FilterAppend<T>(a: seq<T>, b: seq<T>, p: T -> bool)
    ensures Filter(a + b, p) == Filter(a, p) + Filter(b, p)
  {
    if a == [] {
      assert a + b == b;
    } else {
      assert (a + b)[0] == a[0];
      assert (a + b)[1..] == a[1..] + b;
      FilterAppend(a[1..], b, p);
    }
  }

  /** A filter that keeps every element returns its input unchanged. */
  lemma {:induction false} FilterKeepsAll<T>(s: seq<T>, p: T -> bool)
    requires forall i | 0 <= i < |s| :: p(s[i])
    ensures Filter(s, p) == s
  {
    if s != [] {
      FilterKeepsAll(s[1..], p);
    }
  }

  /** A filter that rejects only the element at position k removes exactly that element. */
  lemma {:induction false} FilterCutsOut<T>(s: seq<T>, p: T -> bool, k: nat)
    requires k < |s| && !p(s[k])
    requires forall i | 0 <= i < |s| && i != k :: p(s[i])
    ensures Filter(s, p) == s[..k] + s[k + 1..]
  {
    var tail := s[1..];
    if k == 0 {
      assert forall i | 0 <= i < |tail| :: tail[i] == s[i + 1];
      FilterKeepsAll(tail, p);
    } else {
      assert forall i | 0 <= i < |tail| && i != k - 1 :: p(tail[i]) by {
        assert forall i | 0 <= i < |tail| :: tail[i] == s[i + 1];
      }
      FilterCutsOut(tail, p, k - 1);
      assert s[..k] == [s[0]] + tail[..k - 1];
      assert s[k + 1..] == tail[k..];
    }
  }

  /** Filtering twice with the same predicate is filtering once. */
  lemma FilterIdempotent<T>(s: seq<T>, p: T -> bool)
    ensures Filter(Filter(s, p), p) == Filter(s, p)
  {
    FilterKeepsAll(Filter(s, p), p);
  }

  /** No two elements of `s` share a key. */
  ghost predicate DistinctBy<T, K>(s: seq<T>, key: T -> K)
  {
    forall i, j | 0 <= i < j < |s| :: key(s[i]) != key(s[j])
  }

  /** Removing elements cannot make two keys collide. */
  lemma {:induction false} FilterKeepsDistinctBy<T, K>(s: seq<T>, p: T -> bool, key: T -> K)
    requires DistinctBy(s, key)
    ensures DistinctBy(Filter(s, p), key)
  {
    if s != [] {
      var tail := s[1..];
      assert DistinctBy(tail, key) by {
        forall i, j | 0 <= i < j < |tail| ensures key(tail[i]) != key(tail[j]) {
          assert tail[i] == s[i + 1] && tail[j] == s[j + 1];
        }
      }
      FilterKeepsDistinctBy(tail, p, key);
      var rest := Filter(tail, p);
      forall i | 0 <= i < |rest| ensures key(rest[i]) != key(s[0]) {
        var k :| 0 <= k < |tail| && tail[k] == rest[i];
        assert s[k + 1] == rest[i];
      }
    }
  }

  /** `Math.max(...xs, floor)` on integers. */
  function Max(xs: seq<int>, floor: int): (m: int)
    ensures floor <= m
    ensures forall i | 0 <= i < |xs| :: xs[i] <= m
    ensures m == floor || m in xs
  {
    if xs == [] then floor
    else
      var rest := Max(xs[1..], floor);
      assert forall i | 1 <= i < |xs| :: xs[i] == xs[1..][i - 1];
      if xs[0] > rest then xs[0] else rest
  }
}

=== FILE: js_string.dfy ===
/**
 * The JavaScript string built-ins the timetable uses to build and read cell
 * identifiers and room labels: rendering an integer in a template literal,
 * `parseInt(s, 10)`, and `String.prototype.split` with a one-character separator.
 */
module JsString {
  import opened JsArray

  predicate IsDigit(c: char) { '0' <= c <= '9' }

  predicate AllDigits(s: string) { forall i | 0 <= i < |s| :: IsDigit(s[i]) }

  function DigitChar(d: nat): (c: char)
    requires d < 10
    ensures IsDigit(c) && DigitValue(c) == d
  {
    ('0' as int + d) as char
  }

  function DigitValue(c: char): nat
    requires IsDigit(c)
  {
    c as int - '0' as int
  }

  /** The decimal text of a natural number, as `${n}` renders it: digits only, no leading zero. */
  function NatToString(n: nat): (s: string)
    ensures |s| >= 1 && AllDigits(s)
    ensures s[0] == '0' ==> n == 0
  {
    if n < 10 then [DigitChar(n)] else NatToString(n / 10) + [DigitChar(n % 10)]
  }

  /**
   * `${n}` for an integer-valued number: a minus sign before the magnitude when negative.
   * The digits have no leading zero, so the text of each value is the canonical one.
   */
  function IntToString(n: int): (s: string)
    ensures n >= 0 ==> |s| >= 1 && AllDigits(s) && DigitsValue(s) == n && (s[0] == '0' ==> n == 0)
    ensures n < 0 ==> |s| >= 2 && s[0] == '-' && AllDigits(s[1..]) && DigitsValue(s[1..]) == -n && s[1] != '0'
  {
    if n < 0 then
      var s := "-" + NatToString(-n);
      assert s[1..] == NatToString(-n);
      DigitsValueOfNatToString(-n);
      s
    else
      DigitsValueOfNatToString(n);
      NatToString(n)
  }

  /** The number a string of decimal digits denotes (the empty string denotes 0). */
  function DigitsValue(s: string): nat
    requires AllDigits(s)
  {
    if s == [] then 0 else DigitsValue(s[..|s| - 1]) * 10 + DigitValue(s[|s| - 1])
  }

  /** Reading back the decimal text of `n` gives `n`. */
  lemma {:induction false} DigitsValueOfNatToString(n: nat)
    ensures DigitsValue(NatToString(n)) == n
  {
    if n >= 10 {
      DigitsValueOfNatToString(n / 10);
      var s := NatToString(n);
      assert s[..|s| - 1] == NatToString(n / 10);
    }
  }

  /** Different numbers have different decimal texts. */
  lemma NatToStringInjective(m: nat, n: nat)
    requires NatToString(m) == NatToString(n)
    ensures m == n
  {
    DigitsValueOfNatToString(m);
    DigitsValueOfNatToString(n);
  }

  /** The longest prefix of `s` made of decimal digits. */
  function LeadingDigits(s: string): (d: string)
    ensures d <= s && AllDigits(d)
    ensures |d| < |s| ==> !IsDigit(s[|d|])
  {
    if s != [] && IsDigit(s[0]) then [s[0]] + LeadingDigits(s[1..]) else []
  }

  /**
   * `parseInt(s, 10)` for a string without leading white space: an optional `+`,
   * then as many decimal digits as there are. `None` stands for NaN, the result
   * when no digit follows.
   */
  function ParseInt(s: string): (r: Option<nat>)
    ensures var body := if s != [] && s[0] == '+' then s[1..] else s;
      && (r.None? <==> body == [] || !IsDigit(body[0]))
      && (r.Some? ==> r.value == DigitsValue(LeadingDigits(body)))
  {
    var body := if s != [] && s[0] == '+' then s[1..] else s;
    var digits := LeadingDigits(body);
    if digits == [] then None else Some(DigitsValue(digits))
  }

  /** A digit string is its own leading-digit prefix. */
  lemma {:induction false} LeadingDigitsOfDigits(s: string, rest: string)
    requires AllDigits(s)
    requires rest == [] || !IsDigit(rest[0])
    ensures LeadingDigits(s + rest) == s
  {
    if s != [] {
      assert (s + rest)[1..] == s[1..] + rest;
      LeadingDigitsOfDigits(s[1..], rest);
    } else {
      assert s + rest == rest;
    }
  }

  /** `parseInt` reads back the decimal text of `n`, whatever non-digit text follows it. */
  lemma ParseIntOfNatToString(n: nat, rest: string)
    requires rest == [] || !IsDigit(rest[0])
    ensures ParseInt(NatToString(n) + rest) == Some(n)
  {
    LeadingDigitsOfDigits(NatToString(n), rest);
    DigitsValueOfNatToString(n);
  }

  /** `parts.join(sep)` for a one-character separator. */
  function Join(parts: seq<string>, sep: char): string
    requires |parts| >= 1
  {
    if |parts| == 1 then parts[0] else parts[0] + [sep] + Join(parts[1..], sep)
  }

  /** `s.split(sep)` for a one-character separator: the text between successive separators. */
  function Split(s: string, sep: char): (parts: seq<string>)
    ensures |parts| >= 1
    ensures forall i | 0 <= i < |parts| :: sep !in parts[i]
    ensures Join(parts, sep) == s
  {
    if s == [] then [[]]
    else
      var rest := Split(s[1..], sep);
      if s[0] == sep then
        assert [s[0]] + s[1..] == s;
        [[]] + rest
      else
        var parts := [[s[0]] + rest[0]] + rest[1..];
        assert forall i | 1 <= i < |parts| :: parts[i] == rest[i];
        assert Join(parts, sep) == s by {
          if |rest| > 1 {
            assert parts[1..] == rest[1..];
          }
          assert [s[0]] + s[1..] == s;
        }
        parts
  }

  /** Splitting text that holds no separator yields that text as the only part. */
  lemma {:induction false} SplitWithoutSeparator(s: string, sep: char)
    requires sep !in s
    ensures Split(s, sep) == [s]
  {
    if s != [] {
      SplitWithoutSeparator(s[1..], sep);
      assert [s[0]] + s[1..] == s;
    }
  }

  /** The first separator ends the first part; the rest is split on its own. */
  lemma {:induction false} SplitAtFirstSeparator(a: string, sep: char, b: string)
    requires sep !in a
    ensures Split(a + [sep] + b, sep) == [a] + Split(b, sep)
  {
    var s := a + [sep] + b;
    if a == [] {
      assert s[0] == sep && s[1..] == b;
    } else {
      assert s[0] == a[0] && s[1..] == a[1..] + [sep] + b;
      SplitAtFirstSeparator(a[1..], sep, b);
      assert [a[0]] + a[1..] == a;
    }
  }

  /** Splitting undoes joining when no part holds the separator. */
  lemma {:induction false} SplitJoin(parts: seq<string>, sep: char)
    requires |parts| >= 1
    requires forall i | 0 <= i < |parts| :: sep !in parts[i]
    ensures Split(Join(parts, sep), sep) == parts
  {
    if |parts| == 1 {
      SplitWithoutSeparator(parts[0], sep);
    } else {
      SplitJoin(parts[1..], sep);
      SplitAtFirstSeparator(parts[0], sep, Join(parts[1..], sep));
      assert [parts[0]] + parts[1..] == parts;
    }
  }

  /** `s.split(sep)[k]`, with `None` for an index past the last part (`undefined`). */
  function SplitField(s: string, sep: char, k: nat): (r: Option<string>)
    ensures r.Some? <==> k < |Split(s, sep)|
    ensures r.Some? ==> r.value == Split(s, sep)[k]
    ensures r.Some? ==> sep !in r.value
  {
    var parts := Split(s, sep);
    if k < |parts| then Some(parts[k]) else None
  }
}

=== FILE: mock_data.dfy ===
/**
 * The timetable's data model, its reference tables and the mock weekly schedule
 * generator (src/data/mockData.ts).
 *
 * The generator draws from `Math.random()`; here each (day, period) slot's draws
 * come from an oracle `draw` instead: whether the slot is filled and, if it is,
 * which subject (an index below the number of subjects) and which room offset
 * (below 20) were drawn.
 */
module MockData {
  import opened JsArray
  import opened JsString

  datatype Subject = Subject(id: int, code: string, name: string, teacher: string, colorClass: string)

  datatype Class = Class(id: int, name: string, grade: string)

  datatype Period = Period(id: int, name: string, startTime: string, endTime: string)

  /** One lesson: a subject taught to a class in a (day, period) slot; `day` 0 is Monday. */
  datatype ScheduleItem = ScheduleItem(id: int, subjectId: int, classId: int, day: int, periodId: int, room: Option<string>)

  const Subjects: seq<Subject> := [
    Subject(1, "Ma", "Mathematics", "Mr. Smith", "subject-color-1"),
    Subject(2, "En", "English", "Ms. Johnson", "subject-color-2"),
    Subject(3, "Ph", "Physics", "Dr. Brown", "subject-color-3"),
    Subject(4, "Ch", "Chemistry", "Mrs. Davis", "subject-color-4"),
    Subject(5, "Bi", "Biology", "Mr. Wilson", "subject-color-5"),
    Subject(6, "Hi", "History", "Ms. Lee", "subject-color-6"),
    Subject(7, "Ge", "Geography", "Mr. Anderson", "subject-color-7"),
    Subject(8, "PE", "Physical Education", "Mr. Garcia", "subject-color-8"),
    Subject(9, "Ar", "Art", "Ms. Martinez", "subject-color-9"),
    Subject(10, "Mu", "Music", "Mrs. Taylor", "subject-color-10"),
    Subject(11, "CS", "Computer Science", "Mr. Thomas", "subject-color-11"),
    Subject(12, "Fr", "French", "Mme. Dubois", "subject-color-12"),
    Subject(13, "Sp", "Spanish", "Sr. Rodriguez", "subject-color-13"),
    Subject(14, "Dr", "Drama", "Ms. White", "subject-color-14"),
    Subject(15, "Ec", "Economics", "Dr. Clark", "subject-color-15")
  ]

  const Classes: seq<Class> := [
    Class(1, "Class 1A", "Grade 1"),
    Class(2, "Class 2B", "Grade 2"),
    Class(3, "Class 3C", "Grade 3"),
    Class(4, "Class 4D", "Grade 4"),
    Class(5, "Class 5E", "Grade 5"),
    Class(6, "Class 6F", "Grade 6"),
    Class(7, "Class 7G", "Grade 7"),
    Class(8, "Class 8H", "Grade 8")
  ]

  const Periods: seq<Period> := [
    Period(1, "1", "08:00", "08:45"),
    Period(2, "2", "08:50", "09:35"),
    Period(3, "3", "09:45", "10:30"),
    Period(4, "4", "10:35", "11:20"),
    Period(5, "5", "11:30", "12:15"),
    Period(6, "6", "12:20", "13:05"),
    Period(7, "7", "13:45", "14:30"),
    Period(8, "8", "14:35", "15:20"),
    Period(9, "9", "15:30", "16:15")
  ]

  const Days: seq<string> := ["Monday", "Tuesday", "Wednesday", "Thursday", "Friday"]

  /** The table sizes the generator and the grid iterate over: `days.length`, `periods.length`, `subjects.length`. */
  const DayCount: nat := 5
  const PeriodCount: nat := 9
  const SubjectCount: nat := 15

  /** The named sizes are the tables' lengths. */
  lemma TableSizes()
    ensures |Days| == DayCount && |Periods| == PeriodCount && |Subjects| == SubjectCount
  {
  }

  /** Subject ids run 1, 2, ..., 15 in table order, so they are distinct. */
  lemma SubjectTable()
    ensures |Subjects| == 15
    ensures forall i | 0 <= i < |Subjects| :: Subjects[i].id == i + 1
  {
  }

  /** Period ids run 1, 2, ..., 9 in table order; the week has five day labels. */
  lemma PeriodAndDayTables()
    ensures |Periods| == 9 && |Days| == 5
    ensures forall i | 0 <= i < |Periods| :: Periods[i].id == i + 1
  {
  }

  /** An index drawn as `Math.floor(Math.random() * subjects.length)`. */
  type SubjectPick = k: nat | k < SubjectCount

  /** An offset drawn as `Math.floor(Math.random() * 20)`. */
  type RoomPick = k: nat | k < 20

  /** What the random draws decided for one slot. */
  datatype SlotDraw = Skip | Take(subjectPick: SubjectPick, roomPick: RoomPick)

  /** The random source: the draws made for the slot (day, periodId). */
  type Draws = (int, int) -> SlotDraw

  /** The room label `R${n}`. */
  function RoomLabel(n: nat): string
  {
    "R" + NatToString(n)
  }

  /** A room label is `R` followed by the decimal digits of its number. */
  lemma RoomLabelDigits(n: nat)
    ensures |RoomLabel(n)| >= 2 && RoomLabel(n)[0] == 'R' && AllDigits(RoomLabel(n)[1..])
    ensures DigitsValue(RoomLabel(n)[1..]) == n
  {
    DigitsValueOfNatToString(n);
    assert RoomLabel(n)[1..] == NatToString(n);
  }

  /** A room label the generator can produce: `R${n}` for a number n from 101 to 120. */
  ghost predicate IsMockRoom(s: string)
  {
    exists n: nat | 101 <= n <= 120 :: s == RoomLabel(n)
  }

  /** The slot lies in the weekly grid: a day of the week and a listed period. */
  predicate InWeek(item: ScheduleItem)
  {
    0 <= item.day < DayCount && 1 <= item.periodId <= PeriodCount
  }

  /** The fields a generated item has whatever was drawn. */
  ghost predicate IsMockItem(item: ScheduleItem, classId: int)
  {
    && item.classId == classId
    && 1 <= item.subjectId <= SubjectCount
    && item.room.Some? && IsMockRoom(item.room.value)
  }

  /** `a`'s slot comes strictly before `b`'s: an earlier day, or the same day and an earlier period. */
  predicate SlotBefore(a: ScheduleItem, b: ScheduleItem)
  {
    a.day < b.day || (a.day == b.day && a.periodId < b.periodId)
  }

  /** The item pushed for a filled slot: subject `subjectPick + 1`, room `R${101 + roomPick}`. */
  function DrawnItem(id: int, classId: int, day: int, periodId: int, subjectPick: SubjectPick, roomPick: RoomPick): ScheduleItem
  {
    ScheduleItem(id, subjectPick + 1, classId, day, periodId, Some(RoomLabel(roomPick + 101)))
  }

  /** The items the inner loop pushes for `day` over periods 1..p, numbered from `firstId`. */
  function DayItems(classId: int, draw: Draws, day: int, p: nat, firstId: int): seq<ScheduleItem>
  {
    if p == 0 then []
    else
      var prev := DayItems(classId, draw, day, p - 1, firstId);
      match draw(day, p)
      case Skip => prev
      case Take(subjectPick, roomPick) =>
        prev + [DrawnItem(firstId + |prev|, classId, day, p, subjectPick, roomPick)]
  }

  /** A filled slot appends its item, numbered after the day's earlier items. */
  lemma DayItemsTake(classId: int, draw: Draws, day: int, p: nat, firstId: int)
    requires p >= 1 && draw(day, p).Take?
    ensures var prev := DayItems(classId, draw, day, p - 1, firstId);
      DayItems(classId, draw, day, p, firstId)
        == prev + [DrawnItem(firstId + |prev|, classId, day, p, draw(day, p).subjectPick, draw(day, p).roomPick)]
  {
  }

  /**
   * `r` is a possible day's worth of items: at most one per period 1..p, numbered
   * consecutively from `firstId`, all on `day`, in increasing period order, each
   * with a drawn subject and room.
   */
  ghost predicate IsDayRow(r: seq<ScheduleItem>, classId: int, day: int, p: nat, firstId: int)
  {
    && |r| <= p
    && (forall k | 0 <= k < |r| ::
          r[k].id == firstId + k && r[k].day == day && 1 <= r[k].periodId <= p && IsMockItem(r[k], classId))
    && (forall i, j | 0 <= i < j < |r| :: r[i].periodId < r[j].periodId)
  }

  lemma {:induction false} DayItemsShape(classId: int, draw: Draws, day: int, p: nat, firstId: int)
    ensures IsDayRow(DayItems(classId, draw, day, p, firstId), classId, day, p, firstId)
  {
    if p > 0 {
      DayItemsShape(classId, draw, day, p - 1, firstId);
      if draw(day, p).Take? {
        var n := draw(day, p).roomPick + 101;
        assert IsMockRoom(RoomLabel(n));
      }
    }
  }

  /** The items the outer loop has pushed once days 0..d-1 are done. */
  function ItemsUpToDay(classId: int, draw: Draws, d: nat): seq<ScheduleItem>
  {
    if d == 0 then []
    else
      var prev := ItemsUpToDay(classId, draw, d - 1);
      prev + DayItems(classId, draw, d - 1, PeriodCount, |prev| + 1)
  }

  /**
   * `r` is a possible first d days of a week: items numbered 1, 2, ... in push order,
   * on days before d and on listed periods, with drawn subjects and rooms, in
   * strictly increasing slot order, at most one per slot.
   */
  ghost predicate IsWeekPrefix(r: seq<ScheduleItem>, classId: int, d: nat)
  {
    && |r| <= d * PeriodCount
    && (forall k | 0 <= k < |r| ::
          r[k].id == k + 1 && 0 <= r[k].day < d && 1 <= r[k].periodId <= PeriodCount && IsMockItem(r[k], classId))
    && (forall i, j | 0 <= i < j < |r| :: SlotBefore(r[i], r[j]))
  }

  /** Appending the next day's row to the first d - 1 days gives the first d days. */
  lemma WeekPrefixExtend(prev: seq<ScheduleItem>, next: seq<ScheduleItem>, classId: int, d: nat)
    requires d >= 1
    requires IsWeekPrefix(prev, classId, d - 1)
    requires IsDayRow(next, classId, d - 1, PeriodCount, |prev| + 1)
    ensures IsWeekPrefix(prev + next, classId, d)
  {
    var r := prev + next;
    forall k | 0 <= k < |r|
      ensures r[k].id == k + 1 && 0 <= r[k].day < d && 1 <= r[k].periodId <= PeriodCount && IsMockItem(r[k], classId)
    {
      if k < |prev| {
        assert r[k] == prev[k];
      } else {
        assert r[k] == next[k - |prev|];
      }
    }
    WeekPrefixExtendOrdered(prev, next, classId, d);
  }

  lemma WeekPrefixExtendOrdered(prev: seq<ScheduleItem>, next: seq<ScheduleItem>, classId: int, d: nat)
    requires d >= 1
    requires IsWeekPrefix(prev, classId, d - 1)
    requires IsDayRow(next, classId, d - 1, PeriodCount, |prev| + 1)
    ensures forall i, j | 0 <= i < j < |prev + next| :: SlotBefore((prev + next)[i], (prev + next)[j])
  {
    var r := prev + next;
    forall i, j | 0 <= i < j < |r| ensures SlotBefore(r[i], r[j]) {
      if j < |prev| {
        assert r[i] == prev[i] && r[j] == prev[j];
      } else if i >= |prev| {
        assert r[i] == next[i - |prev|] && r[j] == next[j - |prev|];
      } else {
        assert r[i] == prev[i] && r[j] == next[j - |prev|];
      }
    }
  }

  lemma {:induction false} ItemsUpToDayShape(classId: int, draw: Draws, d: nat)
    ensures IsWeekPrefix(ItemsUpToDay(classId, draw, d), classId, d)
  {
    if d > 0 {
      ItemsUpToDayShape(classId, draw, d - 1);
      DayItemsShape(classId, draw, d - 1, PeriodCount, |ItemsUpToDay(classId, draw, d - 1)| + 1);
      WeekPrefixExtend(ItemsUpToDay(classId, draw, d - 1),
        DayItems(classId, draw, d - 1, PeriodCount, |ItemsUpToDay(classId, draw, d - 1)| + 1), classId, d);
    }
  }

  /** No item of `r` sits in the slot (day, q). */
  ghost predicate SlotEmpty(r: seq<ScheduleItem>, day: int, q: int)
  {
    forall k | 0 <= k < |r| :: !(r[k].day == day && r[k].periodId == q)
  }

  /**
   * The slot (day, q) of `r` is as the draws decided: empty when the slot was
   * skipped, and otherwise holding an item with the drawn subject and room.
   */
  ghost predicate FilledAsDrawn(r: seq<ScheduleItem>, draw: Draws, day: int, q: int)
  {
    match draw(day, q)
    case Skip => SlotEmpty(r, day, q)
    case Take(subjectPick, roomPick) =>
      exists k | 0 <= k < |r| ::
        && r[k].day == day && r[k].periodId == q
        && r[k].subjectId == subjectPick + 1 && r[k].room == Some(RoomLabel(roomPick + 101))
  }

  /** A slot keeps its drawn content when the other part of a concatenation leaves it empty. */
  lemma FilledAsDrawnAppend(a: seq<ScheduleItem>, b: seq<ScheduleItem>, draw: Draws, day: int, q: int)
    requires (FilledAsDrawn(a, draw, day, q) && SlotEmpty(b, day, q)) || (SlotEmpty(a, day, q) && FilledAsDrawn(b, draw, day, q))
    ensures FilledAsDrawn(a + b, draw, day, q)
  {
    var r := a + b;
    if draw(day, q).Take? {
      if FilledAsDrawn(a, draw, day, q) && SlotEmpty(b, day, q) {
        var k :| 0 <= k < |a| && a[k].day == day && a[k].periodId == q
          && a[k].subjectId == draw(day, q).subjectPick + 1 && a[k].room == Some(RoomLabel(draw(day, q).roomPick + 101));
        assert r[k] == a[k];
      } else {
        var k :| 0 <= k < |b| && b[k].day == day && b[k].periodId == q
          && b[k].subjectId == draw(day, q).subjectPick + 1 && b[k].room == Some(RoomLabel(draw(day, q).roomPick + 101));
        assert r[|a| + k] == b[k];
      }
    } else {
      forall k | 0 <= k < |r| ensures !(r[k].day == day && r[k].periodId == q) {
        if k < |a| {
          assert r[k] == a[k];
        } else {
          assert r[k] == b[k - |a|];
        }
      }
    }
  }

  /** Each of a day's first p slots holds an item exactly when its draw filled it, with the drawn subject and room. */
  lemma {:induction false} DayItemsFollowDraws(classId: int, draw: Draws, day: int, p: nat, firstId: int)
    ensures forall q | 1 <= q <= p :: FilledAsDrawn(DayItems(classId, draw, day, p, firstId), draw, day, q)
  {
    if p > 0 {
      var prev := DayItems(classId, draw, day, p - 1, firstId);
      DayItemsFollowDraws(classId, draw, day, p - 1, firstId);
      DayItemsShape(classId, draw, day, p - 1, firstId);
      assert SlotEmpty(prev, day, p);
      match draw(day, p) {
        case Skip =>
        case Take(subjectPick, roomPick) =>
          var item := DrawnItem(firstId + |prev|, classId, day, p, subjectPick, roomPick);
          DayItemsTake(classId, draw, day, p, firstId);
          forall q | 1 <= q <= p ensures FilledAsDrawn(prev + [item], draw, day, q) {
            if q < p {
              FilledAsDrawnAppend(prev, [item], draw, day, q);
            } else {
              assert (prev + [item])[|prev|] == item;
            }
          }
      }
    }
  }

  /** Each slot of the first d days holds an item exactly when its draw filled it, with the drawn subject and room. */
  lemma {:induction false} ItemsUpToDayFollowDraws(classId: int, draw: Draws, d: nat)
    ensures forall day, q | 0 <= day < d && 1 <= q <= PeriodCount :: FilledAsDrawn(ItemsUpToDay(classId, draw, d), draw, day, q)
  {
    if d > 0 {
      var prev := ItemsUpToDay(classId, draw, d - 1);
      var next := DayItems(classId, draw, d - 1, PeriodCount, |prev| + 1);
      ItemsUpToDayFollowDraws(classId, draw, d - 1);
      ItemsUpToDayShape(classId, draw, d - 1);
      DayItemsShape(classId, draw, d - 1, PeriodCount, |prev| + 1);
      DayItemsFollowDraws(classId, draw, d - 1, PeriodCount, |prev| + 1);
      assert ItemsUpToDay(classId, draw, d) == prev + next;
      forall day, q | 0 <= day < d && 1 <= q <= PeriodCount ensures FilledAsDrawn(prev + next, draw, day, q) {
        if day < d - 1 {
          assert SlotEmpty(next, day, q);
        } else {
          assert SlotEmpty(prev, day, q);
        }
        FilledAsDrawnAppend(prev, next, draw, day, q);
      }
    }
  }

  /** What `generateSchedule(classId)` returns for the draws `draw`. */
  function Generated(classId: int, draw: Draws): (r: seq<ScheduleItem>)
    ensures |r| <= DayCount * PeriodCount == 45
    ensures forall k | 0 <= k < |r| :: r[k].id == k + 1
    ensures forall k | 0 <= k < |r| :: InWeek(r[k]) && IsMockItem(r[k], classId)
    ensures forall i, j | 0 <= i < j < |r| :: SlotBefore(r[i], r[j])
    ensures forall i, j | 0 <= i < j < |r| :: r[i].id != r[j].id
    ensures forall i, j | 0 <= i < j < |r| :: r[i].day != r[j].day || r[i].periodId != r[j].periodId
    ensures forall day, q | 0 <= day < DayCount && 1 <= q <= PeriodCount :: FilledAsDrawn(r, draw, day, q)
  {
    ItemsUpToDayShape(classId, draw, DayCount);
    ItemsUpToDayFollowDraws(classId, draw, DayCount);
    ItemsUpToDay(classId, draw, DayCount)
  }

  /** `generateSchedule`: fills each slot of the week, day by day and period by period. */
  method GenerateSchedule(classId: int, draw: Draws) returns (items: seq<ScheduleItem>)
    ensures items == Generated(classId, draw)
  {
    items := [];
    var id := 1;
    for day := 0 to DayCount
      invariant items == ItemsUpToDay(classId, draw, day)
      invariant id == |items| + 1
    {
      ghost var before := items;
      for periodId := 1 to PeriodCount + 1
        invariant items == before + DayItems(classId, draw, day, periodId - 1, |before| + 1)
        invariant id == |items| + 1
      {
        ghost var done := DayItems(classId, draw, day, periodId - 1, |before| + 1);
        match draw(day, periodId) {
          case Take(subjectPick, roomPick) =>
            var item := DrawnItem(id, classId, day, periodId, subjectPick, roomPick);
            assert id == |before| + 1 + |done|;
            DayItemsTake(classId, draw, day, periodId, |before| + 1);
            assert items + [item] == before + (done + [item]);
            items := items + [item];
            id := id + 1;
          case Skip =>
            assert items == before + DayItems(classId, draw, day, periodId, |before| + 1);
        }
      }
      assert items == ItemsUpToDay(classId, draw, day + 1);
    }
  }
}

=== FILE: schedule_store.dfy ===
/**
 * The timetable page's state and its handlers (src/pages/Index.tsx): the selected
 * class and the list of schedule items shown for it.
 *
 * Each handler's state update is a pure list expression; those are the functions
 * `TryAdd` and `WithoutItem` below, and the class `Store` applies them to its
 * fields. The notifications the handlers raise are left out; an add reports
 * instead whether it was accepted.
 */
module ScheduleStore {
  import opened JsArray
  import opened MockData

  /** The fields the add form submits. */
  datatype AddRequest = AddRequest(periodId: int, day: int, subjectId: int, room: string)

  /** The schedule after an add, and whether the item was added or the add was rejected. */
  datatype AddOutcome = AddOutcome(schedule: seq<ScheduleItem>, added: bool)

  /** The `find` callback of the add handler and of the cell lookup: the item sits in (periodId, day). */
  function SlotMatch(periodId: int, day: int): ScheduleItem -> bool
  {
    (item: ScheduleItem) => item.periodId == periodId && item.day == day
  }

  /** The `filter` callback of the delete handler. */
  function IdDiffers(id: int): ScheduleItem -> bool
  {
    (item: ScheduleItem) => item.id != id
  }

  function ItemId(item: ScheduleItem): int { item.id }

  function ItemSlot(item: ScheduleItem): (int, int) { (item.periodId, item.day) }

  /** No two items share an id. */
  ghost predicate UniqueIds(s: seq<ScheduleItem>) { DistinctBy(s, ItemId) }

  /** No two items share a (periodId, day) slot. */
  ghost predicate OneItemPerSlot(s: seq<ScheduleItem>) { DistinctBy(s, ItemSlot) }

  /** What the page keeps true of its schedule while `classId` is selected. */
  ghost predicate Consistent(s: seq<ScheduleItem>, classId: int)
  {
    && UniqueIds(s)
    && OneItemPerSlot(s)
    && (forall i | 0 <= i < |s| :: s[i].id >= 1)
    && (forall i | 0 <= i < |s| :: s[i].classId == classId)
  }

  /** `Math.max(...s.map(item => item.id), 0)`. */
  function MaxId(s: seq<ScheduleItem>): (m: int)
    ensures m >= 0
    ensures forall i | 0 <= i < |s| :: s[i].id <= m
    ensures m == 0 || exists i | 0 <= i < |s| :: s[i].id == m
  {
    var ids := seq(|s|, i requires 0 <= i < |s| => s[i].id);
    assert forall i | 0 <= i < |s| :: ids[i] == s[i].id;
    Max(ids, 0)
  }

  /** The state update of `handleAddItem` while `classId` is selected. */
  function TryAdd(s: seq<ScheduleItem>, classId: int, req: AddRequest): (r: AddOutcome)
    ensures r.added <==> forall i | 0 <= i < |s| :: !(s[i].periodId == req.periodId && s[i].day == req.day)
    ensures !r.added ==> r.schedule == s
    ensures r.added ==> |r.schedule| == |s| + 1 && r.schedule[..|s|] == s
    ensures r.added ==> r.schedule[|s|] == ScheduleItem(MaxId(s) + 1, req.subjectId, classId, req.day, req.periodId, Some(req.room))
    ensures r.added ==> forall i | 0 <= i < |s| :: s[i].id < r.schedule[|s|].id
    ensures r.added && s == [] ==> r.schedule[0].id == 1
  {
    match Find(s, SlotMatch(req.periodId, req.day))
    case Some(_) => AddOutcome(s, false)
    case None =>
      var item := ScheduleItem(MaxId(s) + 1, req.subjectId, classId, req.day, req.periodId, Some(req.room));
      assert (s + [item])[..|s|] == s;
      AddOutcome(s + [item], true)
  }

  /** The state update of `handleDeleteItem`. */
  function WithoutItem(s: seq<ScheduleItem>, id: int): (r: seq<ScheduleItem>)
    ensures forall i | 0 <= i < |r| :: r[i] in s && r[i].id != id
    ensures forall i | 0 <= i < |s| :: s[i].id != id ==> s[i] in r
    ensures (forall i | 0 <= i < |s| :: s[i].id != id) ==> r == s
  {
    var r := Filter(s, IdDiffers(id));
    // Both branches give r; the test only supplies the lemma for the absent-id ensures.
    if forall i | 0 <= i < |s| :: s[i].id != id then
      FilterKeepsAll(s, IdDiffers(id));
      r
    else
      r
  }

  /** An add keeps the schedule consistent. */
  lemma TryAddKeepsConsistent(s: seq<ScheduleItem>, classId: int, req: AddRequest)
    requires Consistent(s, classId)
    ensures Consistent(TryAdd(s, classId, req).schedule, classId)
  {
    var r := TryAdd(s, classId, req);
    if r.added {
      var t := r.schedule;
      forall i, j | 0 <= i < j < |t| ensures ItemId(t[i]) != ItemId(t[j]) && ItemSlot(t[i]) != ItemSlot(t[j]) {
        if j < |s| {
          assert t[i] == s[i] && t[j] == s[j];
        } else {
          assert t[i] == s[i];
        }
      }
    }
  }

  /** Once an add into a slot succeeded, a second add into the same slot is rejected. */
  lemma SecondAddToSlotRejected(s: seq<ScheduleItem>, classId: int, first: AddRequest, second: AddRequest)
    requires TryAdd(s, classId, first).added
    requires second.periodId == first.periodId && second.day == first.day
    ensures var t := TryAdd(s, classId, first).schedule;
      !TryAdd(t, classId, second).added && TryAdd(t, classId, second).schedule == t
  {
    var t := TryAdd(s, classId, first).schedule;
    assert t[|s|].periodId == second.periodId && t[|s|].day == second.day;
  }

  /** The slot check ignores `classId`: an item of any class in the slot blocks the add. */
  lemma AddBlockedByAnyClass(s: seq<ScheduleItem>, classId: int, req: AddRequest, k: nat)
    requires k < |s| && s[k].periodId == req.periodId && s[k].day == req.day && s[k].classId != classId
    ensures TryAdd(s, classId, req) == AddOutcome(s, false)
  {
  }

  /** Deleting twice is deleting once. */
  lemma WithoutItemIdempotent(s: seq<ScheduleItem>, id: int)
    ensures WithoutItem(WithoutItem(s, id), id) == WithoutItem(s, id)
  {
    FilterIdempotent(s, IdDiffers(id));
  }

  /** Deleting keeps the order of the remaining items: it works piecewise over a concatenation. */
  lemma WithoutItemAppend(a: seq<ScheduleItem>, b: seq<ScheduleItem>, id: int)
    ensures WithoutItem(a + b, id) == WithoutItem(a, id) + WithoutItem(b, id)
  {
    FilterAppend(a, b, IdDiffers(id));
  }

  /** With unique ids, deleting the id of the item at position k cuts out exactly that item. */
  lemma WithoutItemCutsOut(s: seq<ScheduleItem>, k: nat)
    requires UniqueIds(s) && k < |s|
    ensures WithoutItem(s, s[k].id) == s[..k] + s[k + 1..]
  {
    forall i | 0 <= i < |s| && i != k ensures IdDiffers(s[k].id)(s[i]) {
      if i < k {
        assert ItemId(s[i]) != ItemId(s[k]);
      } else {
        assert ItemId(s[k]) != ItemId(s[i]);
      }
    }
    FilterCutsOut(s, IdDiffers(s[k].id), k);
  }

  /** A delete keeps the schedule consistent. */
  lemma WithoutItemKeepsConsistent(s: seq<ScheduleItem>, classId: int, id: int)
    requires Consistent(s, classId)
    ensures Consistent(WithoutItem(s, id), classId)
  {
    FilterKeepsDistinctBy(s, IdDiffers(id), ItemId);
    FilterKeepsDistinctBy(s, IdDiffers(id), ItemSlot);
  }

  /** A generated schedule is consistent for the class it was generated for. */
  lemma GeneratedIsConsistent(classId: int, draw: Draws)
    ensures Consistent(Generated(classId, draw), classId)
  {
    var s := Generated(classId, draw);
    forall i, j | 0 <= i < j < |s| ensures ItemSlot(s[i]) != ItemSlot(s[j]) {
      assert SlotBefore(s[i], s[j]);
    }
  }

  /** The page state: the selected class and the schedule items shown for it. */
  class Store {
    var selectedClass: Class
    var schedule: seq<ScheduleItem>

    ghost predicate Valid()
      reads this
    {
      Consistent(schedule, selectedClass.id)
    }

    /** The initial state: the first class, showing `defaultSchedule = generateSchedule(1)` drawn with `draw`. */
    constructor (draw: Draws)
      ensures Valid()
      ensures selectedClass == Classes[0] && schedule == Generated(1, draw)
    {
      var items := GenerateSchedule(1, draw);
      selectedClass := Classes[0];
      schedule := items;
      GeneratedIsConsistent(1, draw);
    }

    /** `handleSelectClass`: select `classItem` and show a fresh schedule generated for it. */
    method HandleSelectClass(classItem: Class, draw: Draws)
      modifies this
      ensures Valid()
      ensures selectedClass == classItem && schedule == Generated(classItem.id, draw)
    {
      selectedClass := classItem;
      schedule := GenerateSchedule(classItem.id, draw);
      GeneratedIsConsistent(classItem.id, draw);
    }

    /** `handleRefreshSchedule`: replace the schedule with a fresh one for the selected class. */
    method HandleRefreshSchedule(draw: Draws)
      modifies this
      ensures Valid()
      ensures selectedClass == old(selectedClass) && schedule == Generated(selectedClass.id, draw)
    {
      schedule := GenerateSchedule(selectedClass.id, draw);
      GeneratedIsConsistent(selectedClass.id, draw);
    }

    /** `handleDeleteItem`: drop every item with this id. */
    method HandleDeleteItem(id: int)
      requires Valid()
      modifies this
      ensures Valid()
      ensures selectedClass == old(selectedClass) && schedule == WithoutItem(old(schedule), id)
    {
      WithoutItemKeepsConsistent(schedule, selectedClass.id, id);
      schedule := WithoutItem(schedule, id);
    }

    /** `handleAddItem`: add the requested item for the selected class unless its slot is taken. */
    method HandleAddItem(req: AddRequest) returns (added: bool)
      requires Valid()
      modifies this
      ensures Valid()
      ensures selectedClass == old(selectedClass)
      ensures schedule == TryAdd(old(schedule), selectedClass.id, req).schedule
      ensures added == TryAdd(old(schedule), selectedClass.id, req).added
    {
      TryAddKeepsConsistent(schedule, selectedClass.id, req);
      var outcome := TryAdd(schedule, selectedClass.id, req);
      schedule := outcome.schedule;
      added := outcome.added;
    }
  }

  /**
   * The occupied-slot example: with one item at period 1 on Monday, adding another
   * subject to period 1 on Monday is rejected and leaves that single item.
   */
  lemma OccupiedSlotExample()
    ensures var s := [ScheduleItem(1, 1, 1, 0, 1, Some("R101"))];
      TryAdd(s, 1, AddRequest(1, 0, 2, "R102")) == AddOutcome(s, false)
  {
  }
}

=== FILE: timetable_grid.dfy ===
/**
 * The weekly grid (src/components/TimetableGrid.tsx): one row per period, one cell
 * per day, each cell showing the first schedule item found in its slot.
 */
module TimetableGrid {
  import opened JsArray
  import opened JsString
  import opened MockData
  import opened ScheduleStore

  /** What `getSubjectForCell` returns; `None` stands for `undefined`. */
  datatype CellContent = CellContent(subject: Option<Subject>, room: Option<string>, itemId: Option<int>)

  /** The props the grid hands to one cell. `onDelete` holds the id its delete callback removes. */
  datatype CellView = CellView(key: string, period: Period, subject: Option<Subject>, room: Option<string>, isEmpty: bool, onDelete: Option<int>)

  /** The `find` callback of the subject lookup. */
  function SubjectIdIs(id: int): Subject -> bool
  {
    (s: Subject) => s.id == id
  }

  /** `getSubjectForCell(periodId, dayIndex)` over `schedule`. */
  function GetSubjectForCell(schedule: seq<ScheduleItem>, periodId: int, dayIndex: int): (c: CellContent)
    ensures c.itemId.None? <==> forall i | 0 <= i < |schedule| :: !SlotMatch(periodId, dayIndex)(schedule[i])
    ensures c.itemId.None? ==> c == CellContent(None, None, None)
    ensures c.itemId.Some? ==> exists i | 0 <= i < |schedule| ::
      && SlotMatch(periodId, dayIndex)(schedule[i])
      && (forall j | 0 <= j < i :: !SlotMatch(periodId, dayIndex)(schedule[j]))
      && c == CellContent(Find(Subjects, SubjectIdIs(schedule[i].subjectId)), schedule[i].room, Some(schedule[i].id))
  {
    match Find(schedule, SlotMatch(periodId, dayIndex))
    case None => CellContent(None, None, None)
    case Some(item) =>
      var subject := Find(Subjects, SubjectIdIs(item.subjectId));
      CellContent(subject, item.room, Some(item.id))
  }

  /** The subject table resolves exactly the ids 1..15, each to its own row. */
  lemma SubjectLookup(id: int)
    ensures Find(Subjects, SubjectIdIs(id)) == if 1 <= id <= |Subjects| then Some(Subjects[id - 1]) else None
  {
    SubjectTable();
    var r := Find(Subjects, SubjectIdIs(id));
    if 1 <= id <= |Subjects| {
      assert SubjectIdIs(id)(Subjects[id - 1]);
      var i :| 0 <= i < |Subjects| && Subjects[i] == r.value && SubjectIdIs(id)(Subjects[i]);
      assert i == id - 1;
    }
  }

  /** The cell key `${period.id}-${dayIndex}`. */
  function CellKey(periodId: int, dayIndex: int): string
  {
    IntToString(periodId) + "-" + IntToString(dayIndex)
  }

  /** For naturals the key splits on `-` back into the two decimal texts. */
  lemma CellKeySplit(periodId: nat, dayIndex: nat)
    ensures Split(CellKey(periodId, dayIndex), '-') == [NatToString(periodId), NatToString(dayIndex)]
  {
    var parts := [NatToString(periodId), NatToString(dayIndex)];
    assert Join(parts, '-') == CellKey(periodId, dayIndex) by {
      assert parts[1..] == [NatToString(dayIndex)];
    }
    SplitJoin(parts, '-');
  }

  /** Keys of cells with natural coordinates determine both coordinates. */
  lemma CellKeyInjective(p1: nat, d1: nat, p2: nat, d2: nat)
    requires CellKey(p1, d1) == CellKey(p2, d2)
    ensures p1 == p2 && d1 == d2
  {
    CellKeySplit(p1, d1);
    CellKeySplit(p2, d2);
    NatToStringInjective(p1, p2);
    NatToStringInjective(d1, d2);
  }

  /** The cell the grid renders for `period` on day `dayIndex`. */
  function CellFor(schedule: seq<ScheduleItem>, period: Period, dayIndex: int): (v: CellView)
    ensures v.key == CellKey(period.id, dayIndex) && v.period == period
    ensures var c := GetSubjectForCell(schedule, period.id, dayIndex);
      && v.subject == c.subject && v.room == c.room
      && (v.isEmpty <==> c.subject.None?)
      && (v.onDelete.Some? <==> c.itemId.Some? && c.itemId.value != 0)
      && (v.onDelete.Some? ==> v.onDelete == c.itemId)
  {
    var c := GetSubjectForCell(schedule, period.id, dayIndex);
    // `itemId ? ... : undefined` tests truthiness, so an id of 0 gets no delete callback.
    var onDelete := if c.itemId.Some? && c.itemId.value != 0 then c.itemId else None;
    CellView(CellKey(period.id, dayIndex), period, c.subject, c.room, c.subject.None?, onDelete)
  }

  /** `periods.map(period => days.map((day, dayIndex) => cell))`: rows by period, columns by day. */
  function Grid(schedule: seq<ScheduleItem>): (rows: seq<seq<CellView>>)
    ensures |rows| == |Periods|
    ensures forall i | 0 <= i < |rows| :: |rows[i]| == |Days|
    ensures forall i, j | 0 <= i < |rows| && 0 <= j < |Days| :: rows[i][j] == CellFor(schedule, Periods[i], j)
  {
    seq(|Periods|, i requires 0 <= i < |Periods| =>
      seq(|Days|, j requires 0 <= j < |Days| => CellFor(schedule, Periods[i], j)))
  }

  /**
   * The grid is 9 rows of 5 cells, period-major: the cell in row i, column j is the
   * one for period i + 1 on day j, keyed `${i + 1}-${j}`. Keys of distinct cells
   * differ (CellKeyInjective), so each (period, day) pair is visited exactly once.
   */
  lemma GridCellAt(schedule: seq<ScheduleItem>, i: nat, j: nat)
    requires i < 9 && j < 5
    ensures |Grid(schedule)| == 9 && |Grid(schedule)[i]| == 5
    ensures Grid(schedule)[i][j] == CellFor(schedule, Periods[i], j)
    ensures Periods[i].id == i + 1 && Grid(schedule)[i][j].key == CellKey(i + 1, j)
  {
    PeriodAndDayTables();
  }

  /**
   * When ids are unique and positive and no slot holds two items, a cell is passed a delete
   * callback for item k exactly when the cell is that item's own slot. The items' classes
   * play no part: the grid shows whatever schedule it is given.
   */
  lemma CellDeletesOnlyOwnItem(schedule: seq<ScheduleItem>, k: nat, period: Period, dayIndex: int)
    requires UniqueIds(schedule) && OneItemPerSlot(schedule)
    requires forall i | 0 <= i < |schedule| :: schedule[i].id >= 1
    requires k < |schedule|
    ensures CellFor(schedule, period, dayIndex).onDelete == Some(schedule[k].id)
        <==> period.id == schedule[k].periodId && dayIndex == schedule[k].day
  {
    var item := schedule[k];
    var c := GetSubjectForCell(schedule, period.id, dayIndex);
    if period.id == item.periodId && dayIndex == item.day {
      assert SlotMatch(period.id, dayIndex)(schedule[k]);
    }
    if c.itemId.Some? {
      var m :| 0 <= m < |schedule| && SlotMatch(period.id, dayIndex)(schedule[m]) && c.itemId == Some(schedule[m].id);
      if m != k {
        // Unique ids and slots are stated for ordered pairs of positions.
        if m < k {
          assert ItemId(schedule[m]) != ItemId(schedule[k]) && ItemSlot(schedule[m]) != ItemSlot(schedule[k]);
        } else {
          assert ItemId(schedule[k]) != ItemId(schedule[m]) && ItemSlot(schedule[k]) != ItemSlot(schedule[m]);
        }
      }
    }
  }

  /**
   * When ids are unique and positive and no slot holds two items, each item of the week is
   * shown in exactly one cell of the grid, the one of its own slot, and only that cell is
   * passed a delete callback for it, whatever the items' classes.
   */
  lemma GridShowsItemOnce(schedule: seq<ScheduleItem>, k: nat)
    requires UniqueIds(schedule) && OneItemPerSlot(schedule)
    requires forall i | 0 <= i < |schedule| :: schedule[i].id >= 1
    requires k < |schedule| && InWeek(schedule[k])
    ensures exists i, j | 0 <= i < |Periods| && 0 <= j < |Days| :: Grid(schedule)[i][j].onDelete == Some(schedule[k].id)
    ensures forall i, j | 0 <= i < |Periods| && 0 <= j < |Days| ::
      Grid(schedule)[i][j].onDelete == Some(schedule[k].id) <==> i == schedule[k].periodId - 1 && j == schedule[k].day
  {
    PeriodAndDayTables();
    forall i, j | 0 <= i < |Periods| && 0 <= j < |Days|
      ensures Grid(schedule)[i][j].onDelete == Some(schedule[k].id) <==> i == schedule[k].periodId - 1 && j == schedule[k].day
    {
      CellDeletesOnlyOwnItem(schedule, k, Periods[i], j);
    }
    var i, j := schedule[k].periodId - 1, schedule[k].day;
    assert Grid(schedule)[i][j].onDelete == Some(schedule[k].id);
  }

  /** When every id is positive, a cell is passed a delete callback exactly when an item was found in its slot. */
  lemma DeleteOfferedIffItemFound(schedule: seq<ScheduleItem>, period: Period, dayIndex: int)
    requires forall i | 0 <= i < |schedule| :: schedule[i].id >= 1
    ensures CellFor(schedule, period, dayIndex).onDelete.Some?
        <==> exists i | 0 <= i < |schedule| :: SlotMatch(period.id, dayIndex)(schedule[i])
  {
    var c := GetSubjectForCell(schedule, period.id, dayIndex);
    if c.itemId.Some? {
      var m :| 0 <= m < |schedule| && SlotMatch(period.id, dayIndex)(schedule[m]) && c.itemId == Some(schedule[m].id);
    }
  }

  /**
   * An item whose subject id is not in the subject table renders as an empty cell,
   * while its id is still found: the cell's props still carry the item's room and, for
   * a truthy id, a delete callback for it.
   */
  lemma UnknownSubjectRendersEmpty(schedule: seq<ScheduleItem>, k: nat, period: Period)
    requires k < |schedule| && period.id == schedule[k].periodId
    requires forall j | 0 <= j < k :: !SlotMatch(schedule[k].periodId, schedule[k].day)(schedule[j])
    requires !(1 <= schedule[k].subjectId <= |Subjects|)
    ensures GetSubjectForCell(schedule, schedule[k].periodId, schedule[k].day).itemId == Some(schedule[k].id)
    ensures var v := CellFor(schedule, period, schedule[k].day);
      && v.isEmpty && v.room == schedule[k].room
      && (schedule[k].id != 0 ==> v.onDelete == Some(schedule[k].id))
  {
    var item := schedule[k];
    var c := GetSubjectForCell(schedule, item.periodId, item.day);
    assert SlotMatch(item.periodId, item.day)(schedule[k]);
    var m :| 0 <= m < |schedule| && SlotMatch(item.periodId, item.day)(schedule[m])
      && (forall j | 0 <= j < m :: !SlotMatch(item.periodId, item.day)(schedule[j]))
      && c == CellContent(Find(Subjects, SubjectIdIs(schedule[m].subjectId)), schedule[m].room, Some(schedule[m].id));
    assert m == k;
    SubjectLookup(item.subjectId);
  }
}
